=== FILE: README.md ===
# CountryExplorer core, modelled in Dafny

CountryExplorer is an iOS app that lists countries from a REST catalog, auto-adds the
user's own country on first run, and keeps a bounded favourites list. This project
models the sequential logic under its SwiftUI and Combine wiring and proves
properties of it:

- **Favourites storage** (`Storage`). The in-memory `@Published` list of `StorageService`
  plus what UserDefaults holds. `saveCountry` rejects a duplicate (by `alpha3Code`)
  before it checks the five-entry limit. It then appends and writes the list back, and
  a failed write does not roll the append back. `removeCountry` drops every equal entry.
  Both operations preserve the invariant "at most five entries, no two with the same
  code", in memory and in what UserDefaults would load.
- **Country identity and serialisation** (`Models`). `Country.==` compares `alpha3Code`
  only. The coded form carries six fields, so a round trip clears `isCache`.
- **List view model** (`CountryList`). It covers the case-insensitive substring search
  over the fetched catalog, the capacity guard (`didReachMaxCountries`, whose `true`
  means "there is room"), `saveCountry`, and the first-run flow. That flow resolves the
  user's country from the location and falls back to the code `"EG"`.
- **Detail view model** (`CountryDetail`). It covers the currency and capital display
  strings and `toggleSaved`, with `isSaved` following the storage publisher.
- **Offline catalog cache** (`Catalog`). This is the `APIService` extension in
  `CoreDataStack.swift`. An online fetch wins and is re-cached. On failure the
  `isCache` entities are read back; none gives `noData` and an unreadable store gives
  `decodingError`. Re-caching deletes every cached entity and inserts the new ones.
- **HTTP outcome classification** (`Network`). `NetworkService.execute` checks its
  stages in order: URL, transport, response type, status 200...299, decoding.
- **`childDidFinish`** (`Coordinators`). It removes the first child identical to the
  finished one.

External outcomes are parameters:
- `encodeOk` stands for the JSON encoding before the UserDefaults write.
- The location result is a `Result<string, LocationError>`.
- `fetchCountryByCode` is a function from code to result.
- The catalog fetch is a `Result`.
- The Core Data fetch/save steps are success flags (`readOk`, `CacheWrite`).
- The URL session and a request's decoder are functions.

Publishers are modelled as delivering right after the mutation that triggered them.
`DispatchQueue.main.async` blocks run in the order they were enqueued. So in
`addUserCountry`, the default-country failure message is enqueued before the
location-failure message is set, and the location message is the one left standing.

Behaviour worth noting, modelled as the code is written:
- A failed read of the cached snapshot yields `decodingError`, not `noData`.
- The list view model fetches its catalog with the plain `fetchAllCountries`, not
  with the cache fallback.
- Countries read back from the cache carry `isCache == false`, because the conversion
  uses the initialiser's default. No code outside the cache reads `Country.isCache`.

## Model

| member | source | states |
|---|---|---|
| `Models.NewCountry` | CountryExplorer/Core/Models/Country.swift:10-18 | the memberwise initialiser keeps every given field and starts with `isCache == false` |
| `Models.SameCountry` | CountryExplorer/Core/Models/Country.swift:24-26 | two countries are equal exactly when they agree once every field but the alpha-3 code is overwritten: identity is the alpha-3 code alone |
| `Models.SameCountryIsEquivalence` | CountryExplorer/Core/Models/Country.swift:24-26 | country equality is reflexive, symmetric and transitive |
| `Models.SameCountryIgnoresOtherFields` | CountryExplorer/Core/Models/Country.swift:24-26 | changing name, capital, currencies, flag, alpha2Code or isCache keeps a country equal to the original |
| `Models.Encode` | CountryExplorer/Core/Models/Country.swift:20-22 | the coded form keeps the alpha-3 code (and only the six coding keys) |
| `Models.Decode` | CountryExplorer/Core/Models/Country.swift:18-22 | a decoded country keeps the coded alpha-3 code and has `isCache == false` |
| `Models.DecodeEncode` | CountryExplorer/Core/Models/Country.swift:18-22 | encode then decode gives the original with `isCache` cleared, equal to the original |
| `Models.EncodeDecode` | CountryExplorer/Core/Models/Country.swift:20-22 | decode then encode reproduces the serialised record exactly |
| `Models.DecodeAllEncodeAll` | CountryExplorer/Core/Models/Country.swift:20-22 | a list round-trips entry by entry, in order, with `isCache` cleared |
| `Storage.LoadSavedCountries` | CountryExplorer/Utilities/StorageService/StorageServiceProtocol.swift:50-62 | nothing stored or undecodable data loads as `[]`; otherwise one decoded, non-cache country per stored record |
| `Storage.LoadAfterPersist` | CountryExplorer/Utilities/StorageService/StorageServiceProtocol.swift:41-57 | loading what a write stored gives the same countries in the same order (isCache cleared) |
| `Storage.Persist` | CountryExplorer/Utilities/StorageService/StorageServiceProtocol.swift:41-44 | the written data is the encoded array: one record per country, in list order |
| `Storage.IsCountrySaved` | CountryExplorer/Utilities/StorageService/StorageServiceProtocol.swift:76-78 | true exactly when some saved entry has the country's alpha-3 code |
| `Storage.Init` | CountryExplorer/Utilities/StorageService/StorageServiceProtocol.swift:24-26 | the service starts with the list loaded from UserDefaults |
| `Storage.SaveCountry` | CountryExplorer/Utilities/StorageService/StorageServiceProtocol.swift:28-48 | duplicate → `countryAlreadyExists`, unchanged, even on a full list; count ≥ 5 → `countryLimitReached`, unchanged; else exactly `old + [c]` and the country is saved; success iff new, room and encoding succeed; a failed write reports `saveFailed` but keeps the append and leaves UserDefaults as it was |
| `Storage.UnpublishedAttemptChangesNothing` | CountryExplorer/Utilities/StorageService/StorageServiceProtocol.swift:28-39 | a save that assigns no new list changes nothing; one that does has appended the country |
| `Storage.RemoveCountry` | CountryExplorer/Utilities/StorageService/StorageServiceProtocol.swift:64-74 | afterwards no entry equals `c`; every other entry stays with all its copies, in order; an absent `c` leaves the list unchanged; the write-back failure is not reported |
| `Storage.PersistKeepsBounded` | CountryExplorer/Utilities/StorageService/StorageServiceProtocol.swift:41-44 | writing a bounded, duplicate-free list stores one that loads bounded and duplicate-free |
| `Storage.FilterKeepsDistinct` | CountryExplorer/Utilities/StorageService/StorageServiceProtocol.swift:65 | removing entries never creates two with the same code |
| `Storage.InitValid` | CountryExplorer/Utilities/StorageService/StorageServiceProtocol.swift:24-26 | a service started from a bounded stored list satisfies the invariant |
| `Storage.SavePreservesValid` | CountryExplorer/Utilities/StorageService/StorageServiceProtocol.swift:28-48 | every save outcome keeps ≤ 5 entries and distinct codes, in memory and in UserDefaults |
| `Storage.RemovePreservesValid` | CountryExplorer/Utilities/StorageService/StorageServiceProtocol.swift:64-74 | every removal keeps ≤ 5 entries and distinct codes, in memory and in UserDefaults |
| `Storage.SaveTwiceRejectsDuplicate` | CountryExplorer/Utilities/StorageService/StorageServiceProtocol.swift:28-39 | saving the same country a second time fails with `countryAlreadyExists` and changes nothing |
| `Storage.RemoveUndoesSave` | CountryExplorer/Utilities/StorageService/StorageServiceProtocol.swift:39-65 | removing a just-saved new country restores the previous list exactly |
| `Network.RawValue` | CountryExplorer/Utilities/NetworkService/NetworkService.swift:28-33 | each method's raw value is its own verb: GET ↔ "GET", POST ↔ "POST", PUT ↔ "PUT", DELETE ↔ "DELETE" |
| `Network.FromRawValue` | CountryExplorer/Utilities/NetworkService/NetworkService.swift:28-33 | `init?(rawValue:)` finds the method with that raw value, and fails on any other string |
| `Network.RawValueRoundTrip` | CountryExplorer/Utilities/NetworkService/NetworkService.swift:28-33 | raw values identify methods: reading a raw value back gives the method |
| `Network.DefaultRequest` | CountryExplorer/Utilities/NetworkService/NetworkService.swift:22-25 | the default request method is GET and the default headers are empty |
| `Network.BuildRequest` | CountryExplorer/Utilities/NetworkService/NetworkService.swift:56-63 | the URL request carries the URL, the method's raw name and every header |
| `Network.Execute` | CountryExplorer/Utilities/NetworkService/NetworkService.swift:47-88 | no URL → `invalidURL`; transport failure → `networkError` with its cause; non-HTTP → `invalidResponse`; status outside 200...299 → `serverError` with that status; decode failure → `decodingError`; else the decoded value |
| `Network.ExecuteSucceedsIffAllStagesPass` | CountryExplorer/Utilities/NetworkService/NetworkService.swift:47-88 | the call succeeds exactly when all five stages pass, and returns the decoded body |
| `Network.InvalidURLStopsEarly` | CountryExplorer/Utilities/NetworkService/NetworkService.swift:49-54 | with no URL neither the session nor the decoder affects the outcome |
| `Network.ServerErrorSkipsDecoding` | CountryExplorer/Utilities/NetworkService/NetworkService.swift:78-87 | a non-2xx status is reported with that exact status, whatever the decoder would do |
| `Network.TransportFailureSkipsDecoding` | CountryExplorer/Utilities/NetworkService/NetworkService.swift:66-71 | a transport failure is reported with its cause, whatever the decoder would do |
| `Catalog.ToCurrency` | CountryExplorer/Resources/CoreData/CoreDataStack.swift:151-158 | a currency entity converts iff it has a code and a name, keeping them and the symbol |
| `Catalog.CurrenciesOf` | CountryExplorer/Resources/CoreData/CoreDataStack.swift:151-159 | conversion drops incomplete currency entities and never adds any; none complete gives `[]`, all complete loses none |
| `Catalog.CurrenciesOfProvenance` | CountryExplorer/Resources/CoreData/CoreDataStack.swift:151-159 | every converted currency is what some complete entity of the list converts to |
| `Catalog.CurrenciesOfSingle` | CountryExplorer/Resources/CoreData/CoreDataStack.swift:151-158 | one entity converts to its own currency when it has a code and a name, to nothing otherwise |
| `Catalog.CurrenciesOfAppend` | CountryExplorer/Resources/CoreData/CoreDataStack.swift:151-159 | conversion works entity by entity: each complete entity's currency lands in its place, in order |
| `Catalog.ToCountry` | CountryExplorer/Resources/CoreData/CoreDataStack.swift:150-169 | a missing name, flag, alpha2Code or alpha3Code becomes ""; capital is kept; currencies are converted; `isCache` is false |
| `Catalog.ToCurrencyEntity` | CountryExplorer/Resources/CoreData/CoreDataStack.swift:84-87 | a stored currency entity converts back to the same currency |
| `Catalog.CurrencyEntitiesOf` | CountryExplorer/Resources/CoreData/CoreDataStack.swift:82-90 | one currency entity per currency, in order; none for a country without a list |
| `Catalog.CurrenciesRoundTrip` | CountryExplorer/Resources/CoreData/CoreDataStack.swift:82-158 | reading back the currency entities of a list gives the list |
| `Catalog.ToEntity` | CountryExplorer/Resources/CoreData/CoreDataStack.swift:70-90 | the inserted entity is marked `isCache` and keeps the alpha-3 code |
| `Catalog.EntityRoundTrip` | CountryExplorer/Resources/CoreData/CoreDataStack.swift:70-168 | a cached country reads back with every field kept, `isCache` false and a missing currency list as `[]`; it is equal to the original |
| `Catalog.EntitiesFor` | CountryExplorer/Resources/CoreData/CoreDataStack.swift:70-91 | one cached entity per country, in order |
| `Catalog.ClearExistingCache` | CountryExplorer/Resources/CoreData/CoreDataStack.swift:103-115 | a successful fetch deletes every cached entity and keeps every other one; a failed fetch deletes nothing |
| `Catalog.CacheCountries` | CountryExplorer/Resources/CoreData/CoreDataStack.swift:62-101 | non-cache entities are never touched; after a full success the cached entities are exactly one per new country; an uncleared cache keeps its old entries too; an unsaved context changes nothing |
| `Catalog.FetchCountriesFromCache` | CountryExplorer/Resources/CoreData/CoreDataStack.swift:136-176 | a failed fetch → `decodingError`; no cached entities → `noData`; else one converted country per cached entity, in order |
| `Catalog.FetchAllCountriesWithCacheFallback` | CountryExplorer/Resources/CoreData/CoreDataStack.swift:117-134 | an online success is returned unchanged and re-cached; an online failure reads the cache and leaves the store alone; the only errors surfaced are `decodingError` and `noData` |
| `Catalog.CacheAllCountries` | CountryExplorer/Resources/CoreData/CoreDataStack.swift:53-60 | the pre-warm never fails: a failed fetch leaves the store unchanged; non-cache entities are never touched |
| `Catalog.FallbackReturnsLastCachedList` | CountryExplorer/Resources/CoreData/CoreDataStack.swift:117-171 | after a cached online fetch, a failing fetch returns that list in order (isCache false) or `noData` when it was empty |
| `CountryList.SearchCountries` | CountryExplorer/Scenes/Countries/CountryList/CountryListViewModel.swift:142-153 | an empty query gives `[]`; otherwise exactly the catalog entries whose lower-cased name contains the lower-cased query, every copy of each, as a subsequence of the catalog |
| `CountryList.SearchIgnoresCase` | CountryExplorer/Scenes/Countries/CountryList/CountryListViewModel.swift:148-150 | queries that differ only in letter case give the same results |
| `CountryList.SearchLowerQuery` | CountryExplorer/Scenes/Countries/CountryList/CountryListViewModel.swift:149 | searching with the lower-cased query changes nothing |
| `CountryList.SearchScenario` | CountryExplorerTests/CountryListViewModelTests.swift:140-163 | over [Egypt, United Kingdom], "United" gives exactly [United Kingdom] |
| `CountryList.SearchFindsNothingScenario` | CountryExplorer/Scenes/Countries/CountryList/CountryListViewModel.swift:142-153 | over the same catalog, "" and "xyz" both give [] |
| `CountryList.ApplySearch` | CountryExplorer/Scenes/Countries/CountryList/CountryListViewModel.swift:142-153 | only `searchResults` changes, to the search over the held catalog: matching entries only, in catalog order, empty for an empty query |
| `CountryList.DidReachMaxCountries` | CountryExplorer/Scenes/Countries/CountryList/CountryListViewModel.swift:133-140 | returns false and sets the capacity message iff the count is ≥ 5; otherwise returns true and changes nothing |
| `CountryList.Deliver` | CountryExplorer/Scenes/Countries/CountryList/CountryListViewModel.swift:47-52 | the view model sees the new list only when storage assigned one; nothing else in it changes |
| `CountryList.SaveCountry` | CountryExplorer/Scenes/Countries/CountryList/CountryListViewModel.swift:155-163 | at or over the limit storage is not called and the capacity message is set; otherwise storage's error becomes the message, and a success leaves the country saved; the catalog and the search results never change |
| `CountryList.RemoveCountry` | CountryExplorer/Scenes/Countries/CountryList/CountryListViewModel.swift:165-167 | delegates to storage; the delivered list no longer contains the country; nothing else in the view model changes |
| `CountryList.SaveCountryPreservesValid` | CountryExplorer/Scenes/Countries/CountryList/CountryListViewModel.swift:155-163 | the view-model save keeps the storage invariant and the view model's copy in step |
| `CountryList.SaveQuietly` | CountryExplorer/Scenes/Countries/CountryList/CountryListViewModel.swift:90-92 | `try?` save: storage changes as the save does, no error message is set, and only storage and the delivered list change |
| `CountryList.AddDefaultCountry` | CountryExplorer/Scenes/Countries/CountryList/CountryListViewModel.swift:101-112 | looks up exactly "EG"; a found country is saved, any save error is swallowed (message unchanged) and the delivered list matches storage; a failed lookup only sets a message; nothing beyond storage, the saved list and the message changes |
| `CountryList.AddUserCountry` | CountryExplorer/Scenes/Countries/CountryList/CountryListViewModel.swift:80-99 | a located, found country is saved, any save error is swallowed (message unchanged) and the delivered list matches storage; any location or lookup failure leaves storage exactly as the "EG" fallback does; a denied permission is the fallback and nothing else; other failures are reported and their message is the one left; nothing beyond storage, the saved list and the message changes |
| `CountryList.FetchAllCountries` | CountryExplorer/Scenes/Countries/CountryList/CountryListViewModel.swift:114-131 | a fetched catalog replaces `allCountries`; a failure only sets a message |
| `CountryList.LoadInitialData` | CountryExplorer/Scenes/Countries/CountryList/CountryListViewModel.swift:64-77 | a non-empty saved list skips every lookup and leaves storage alone; an empty one runs the user-country flow, with its lookups and its storage effect; with a catalog already held the message is the one that flow leaves (or unchanged), so no catalog fetch happens; at most one country is added |
| `CountryList.LoadInitialDataPreservesValid` | CountryExplorer/Scenes/Countries/CountryList/CountryListViewModel.swift:64-112 | the first-run flow keeps the storage invariant |
| `CountryList.FirstRunFallsBackToDefault` | CountryExplorerTests/CountryListViewModelTests.swift:109-119 | nothing saved and no location: the "EG" country becomes the single saved entry, looked up once |
| `CountryList.FirstRunSavesLocatedCountry` | CountryExplorerTests/CountryListViewModelTests.swift:66-108 | nothing saved, the located country is found: only its code is looked up, it becomes the single saved entry in storage and in the view model, and no message is set; holds from the app-start state with no catalog, given a successful catalog fetch |
| `CountryList.FirstRunLookupFailureFallsBack` | CountryExplorer/Scenes/Countries/CountryList/CountryListViewModel.swift:80-99 | nothing saved, the located country's lookup fails: both codes are looked up in order, "EG" is the single saved entry, and the lookup failure is the message left, also from the app-start state with no catalog when the catalog fetch succeeds |
| `CountryDetail.CurrencyLabel` | CountryExplorer/Scenes/Countries/CountryDetail/CountryDetailViewModel.swift:53-55 | a currency shows as its name, plus " (symbol)" when it has one |
| `CountryDetail.FormattedCurrencies` | CountryExplorer/Scenes/Countries/CountryDetail/CountryDetailViewModel.swift:48-57 | nil or empty → "No currency information"; one currency → its label |
| `CountryDetail.FormattedCurrenciesSnoc` | CountryExplorer/Scenes/Countries/CountryDetail/CountryDetailViewModel.swift:53-56 | one more currency appends ", " and its label: the labels are joined in order |
| `CountryDetail.FormattedCurrenciesScenario` | CountryExplorerTests/CountryDetailViewModelTests.swift:100-145 | "Egyptian pound (£)", "United States Dollar ($), Euro (€)" and "No currency information" for the test countries |
| `CountryDetail.Capital` | CountryExplorer/Scenes/Countries/CountryDetail/CountryDetailViewModel.swift:59-61 | the capital when present, else "No capital information" |
| `CountryDetail.Synced` | CountryExplorer/Scenes/Countries/CountryDetail/CountryDetailViewModel.swift:26-34 | `isSaved` is true exactly when storage's latest list holds an entry with the country's alpha-3 code |
| `CountryDetail.Init` | CountryExplorer/Scenes/Countries/CountryDetail/CountryDetailViewModel.swift:18-24 | `isSaved` starts as storage's membership answer |
| `CountryDetail.ToggleSaved` | CountryExplorer/Scenes/Countries/CountryDetail/CountryDetailViewModel.swift:36-46 | saved → remove and `isSaved` false; unsaved → save with errors swallowed; `isSaved` keeps matching storage's list |
| `CountryDetail.ToggleSavedPreservesValid` | CountryExplorer/Scenes/Countries/CountryDetail/CountryDetailViewModel.swift:36-46 | toggling keeps the storage invariant |
| `CountryDetail.ToggleTwiceRestores` | CountryExplorerTests/CountryDetailViewModelTests.swift:53-98 | from unsaved with room, one toggle saves, a second returns to unsaved with the original list |
| `Coordinators.RemoveFirst` | CountryExplorer/Core/Coordinator/Coordinator.swift:20-27 | removes exactly one occurrence when present (length down by one), nothing otherwise, keeping the order of the rest |
| `Coordinators.RemoveFirstMultiset` | CountryExplorer/Core/Coordinator/Coordinator.swift:20-27 | the remaining children are the original ones minus exactly one copy of the finished child, when it was there |
| `Coordinators.RemoveFirstAt` | CountryExplorer/Core/Coordinator/Coordinator.swift:21-25 | the removal cuts the list at the first index holding the child |
| `Coordinators.ChildDidFinish` | CountryExplorer/Core/Coordinator/Coordinator.swift:20-27 | a nil or absent child leaves the list unchanged; otherwise only the first identical child is removed, the rest keep their order, length drops by one |

## Left out

- SwiftUI views, navigation coordinators other than `childDidFinish`, and the app entry points: pure UI.
- `LocationService` (CoreLocation, geocoder, continuations): the two location calls are one `Result<string, LocationError>` parameter.
- UserDefaults, `JSONEncoder`/`JSONDecoder`, Core Data contexts and predicates: reduced to a stored-data value, an entity sequence and success flags. JSON text itself is not modelled.
- `CoreDataStorageService.swift`: the app does not wire it in, and its guards duplicate `StorageService`.
- Combine timing: the 300 ms debounce, `removeDuplicates`, `receive(on:)`, `@MainActor` hops and the detached caching `Task`. Operations run in sequence, and the caching task counts as finished when the fetch returns.
- `isLoading` and the `didTapAddCountry` navigation: the first is UI state only, and the second uses the same guard as `DidReachMaxCountries`.
- `CoreDataStack.saveContext`, `backgroundContext` and the container set-up: plumbing with no logic.
- Unicode `lowercased()`: modelled as ASCII-only lower-casing.
- `Text.Contains` matches sequences of Unicode scalars. Swift's `String.contains` compares grapheme clusters, so a decomposed "ç" (c plus a combining cedilla) behaves differently. Strings are `seq<char>` here.
- The app shares one `StorageService` between the list view model and every detail view model (`AppCoordinator.swift`, lines 27, 47 and 65). The model gives each view model its own copy of the storage state, so delivery of one screen's changes to another screen's publisher subscription is not modelled.
- The `localizedDescription` strings of `APIError`, `StorageError` and `LocationError`: messages are a `Message` datatype.
- The `UUID` `id` of `Country`, and the test mocks (used only as evidence).
- Core Data gives no order for an unsorted fetch or for a to-many relationship set. The model reads both back in insertion order, and `CurrenciesRoundTrip`/`EntityRoundTrip` rely on that.
- Concurrent `saveCountry` calls that could both pass the limit check: not representable in a sequential model.
- `Storage.InitValid`: it assumes the stored list is bounded. The source does not check data it did not write itself.
- Country-code URL building in `NetworkRequest.swift`: the `url` getter's outcome is the request's `Option<string>`.

=== FILE: Catalog.dfy ===
/**
 * The offline catalog cache that `CoreDataStack.swift` adds to `APIService`:
 * an online fetch that re-caches its result, and a fallback that reads the
 * cached snapshot back. The Core Data store is a sequence of entities; each
 * context operation that can fail takes a success flag.
 */
module Catalog {
  import opened Wrappers
  import opened Seqs
  import opened Models
  import opened Network

  /** A `CurrencyEntity`: every attribute is optional in the managed-object model. */
  datatype CurrencyEntity = CurrencyEntity(code: Option<string>, name: Option<string>, symbol: Option<string>)

  /** A `CountryEntity`; `currencies` is the to-many relationship. */
  datatype CountryEntity = CountryEntity(
    name: Option<string>,
    capital: Option<string>,
    currencies: Option<seq<CurrencyEntity>>,
    flag: Option<string>,
    alpha2Code: Option<string>,
    alpha3Code: Option<string>,
    isCache: bool)

  /** The entities the persistent store holds, in fetch order. */
  type EntityStore = seq<CountryEntity>

  /** The fetch predicate `isCache == YES`. */
  const IsCached: CountryEntity -> bool := (e: CountryEntity) => e.isCache

  /** The complement of `IsCached`: entities the cache logic must not touch. */
  const IsNotCached: CountryEntity -> bool := (e: CountryEntity) => !e.isCache

  /** The entities `isCache == YES` selects, in store order. */
  function CachedEntries(store: EntityStore): seq<CountryEntity> {
    Filter(store, IsCached)
  }

  /** The entities outside the cached snapshot, in store order. */
  function OtherEntries(store: EntityStore): seq<CountryEntity> {
    Filter(store, IsNotCached)
  }

  /** The `compactMap` step for one currency entity: it needs both a code and a name. */
  function ToCurrency(e: CurrencyEntity): (r: Option<Currency>)
    ensures r.Some? <==> e.code.Some? && e.name.Some?
    ensures r.Some? ==> r.value.code == e.code.value && r.value.name == e.name.value
    ensures r.Some? ==> r.value.symbol == e.symbol
  {
    if e.code.Some? && e.name.Some? then Some(Currency(e.code.value, e.name.value, e.symbol)) else None
  }

  /** `compactMap` over a country's currency entities: incomplete ones are dropped, the rest keep their order. */
  function CurrenciesOf(es: seq<CurrencyEntity>): (cs: seq<Currency>)
    ensures |cs| <= |es|
    ensures (forall j :: 0 <= j < |es| ==> ToCurrency(es[j]).None?) ==> cs == []
    ensures (forall j :: 0 <= j < |es| ==> ToCurrency(es[j]).Some?) ==> |cs| == |es|
  {
    if es == [] then []
    else
      match ToCurrency(es[0])
      case Some(c) => [c] + CurrenciesOf(es[1..])
      case None => CurrenciesOf(es[1..])
  }

  /** A single entity converts to its currency when complete and to nothing otherwise. */
  lemma CurrenciesOfSingle(e: CurrencyEntity)
    ensures CurrenciesOf([e]) == if ToCurrency(e).Some? then [ToCurrency(e).value] else []
  {
    assert [e][1..] == [];
  }

  /** Conversion works entity by entity: converting a concatenation concatenates the conversions. */
  lemma {:induction false} CurrenciesOfAppend(a: seq<CurrencyEntity>, b: seq<CurrencyEntity>)
    ensures CurrenciesOf(a + b) == CurrenciesOf(a) + CurrenciesOf(b)
  {
    if a == [] {
      assert a + b == b;
    } else {
      assert (a + b)[0] == a[0];
      assert (a + b)[1..] == a[1..] + b;
      CurrenciesOfAppend(a[1..], b);
      match ToCurrency(a[0])
      case Some(c) =>
        assert CurrenciesOf(a + b) == [c] + (CurrenciesOf(a[1..]) + CurrenciesOf(b));
      case None =>
    }
  }

  /** `c` is what some entity of `es` converts to. */
  predicate ConvertedFrom(es: seq<CurrencyEntity>, c: Currency) {
    exists j :: 0 <= j < |es| && ToCurrency(es[j]) == Some(c)
  }

  /** Every converted currency comes from a complete entity. */
  lemma {:induction false} CurrenciesOfProvenance(es: seq<CurrencyEntity>)
    ensures forall i :: 0 <= i < |CurrenciesOf(es)| ==> ConvertedFrom(es, CurrenciesOf(es)[i])
  {
    if es != [] {
      var rest := CurrenciesOf(es[1..]);
      CurrenciesOfProvenance(es[1..]);
      forall i | 0 <= i < |rest|
        ensures ConvertedFrom(es, rest[i])
      {
        var j :| 0 <= j < |es[1..]| && ToCurrency(es[1..][j]) == Some(rest[i]);
        assert es[j + 1] == es[1..][j];
      }
      match ToCurrency(es[0])
      case Some(c) =>
        var cs := CurrenciesOf(es);
        assert cs == [c] + rest;
        forall i | 0 <= i < |cs|
          ensures ConvertedFrom(es, cs[i])
        {
          if i == 0 {
            assert ToCurrency(es[0]) == Some(cs[0]);
          } else {
            assert cs[i] == rest[i - 1];
          }
        }
      case None =>
        assert CurrenciesOf(es) == rest;
    }
  }

  /** The entity-to-model conversion: missing strings become "", `isCache` takes the initialiser's default. */
  function ToCountry(e: CountryEntity): (c: Country)
    ensures !c.isCache
    ensures c.alpha3Code == e.alpha3Code.GetOr("") && c.alpha2Code == e.alpha2Code.GetOr("")
    ensures c.name == e.name.GetOr("") && c.flag == e.flag.GetOr("")
    ensures c.capital == e.capital
    ensures e.currencies.None? ==> c.currencies.None?
    ensures e.currencies.Some? ==> c.currencies == Some(CurrenciesOf(e.currencies.value))
  {
    NewCountry(e.name.GetOr(""), e.capital,
               match e.currencies case Some(es) => Some(CurrenciesOf(es)) case None => None,
               e.flag.GetOr(""), e.alpha2Code.GetOr(""), e.alpha3Code.GetOr(""))
  }

  /** One currency entity per currency, linked to its country. */
  function ToCurrencyEntity(c: Currency): (e: CurrencyEntity)
    ensures ToCurrency(e) == Some(c)
  {
    CurrencyEntity(Some(c.code), Some(c.name), c.symbol)
  }

  /** One currency entity per currency, in order. */
  function CurrencyEntities(cs: seq<Currency>): (es: seq<CurrencyEntity>)
    ensures |es| == |cs|
    ensures forall i :: 0 <= i < |cs| ==> es[i] == ToCurrencyEntity(cs[i])
  {
    if cs == [] then [] else [ToCurrencyEntity(cs[0])] + CurrencyEntities(cs[1..])
  }

  /** A country's currencies as entities; none are inserted when the country has no list. */
  function CurrencyEntitiesOf(c: Country): (es: seq<CurrencyEntity>)
    ensures |es| == |c.currencies.GetOr([])|
    ensures forall i :: 0 <= i < |es| ==> es[i] == ToCurrencyEntity(c.currencies.GetOr([])[i])
  {
    CurrencyEntities(c.currencies.GetOr([]))
  }

  /** Converting a complete entity in front of others puts its currency in front. */
  lemma CurrenciesOfCons(e: CurrencyEntity, rest: seq<CurrencyEntity>, c: Currency)
    requires ToCurrency(e) == Some(c)
    ensures CurrenciesOf([e] + rest) == [c] + CurrenciesOf(rest)
  {
  }

  /** Reading back the currency entities of a list gives the list. */
  lemma {:induction false} CurrenciesRoundTrip(cs: seq<Currency>)
    ensures CurrenciesOf(CurrencyEntities(cs)) == cs
  {
    if cs != [] {
      var tail := CurrencyEntities(cs[1..]);
      assert CurrencyEntities(cs) == [ToCurrencyEntity(cs[0])] + tail;
      CurrenciesRoundTrip(cs[1..]);
      CurrenciesOfCons(ToCurrencyEntity(cs[0]), tail, cs[0]);
      assert [cs[0]] + cs[1..] == cs;
    }
  }

  /** The entity `cacheCountries` inserts for a country, marked as cache. */
  function ToEntity(c: Country): (e: CountryEntity)
    ensures e.isCache
    ensures e.alpha3Code == Some(c.alpha3Code)
  {
    CountryEntity(Some(c.name), c.capital, Some(CurrencyEntitiesOf(c)), Some(c.flag),
                  Some(c.alpha2Code), Some(c.alpha3Code), true)
  }

  /**
   * What a cached country reads back as: every field kept, `isCache` false, and a
   * missing currency list read back as an empty one.
   */
  lemma EntityRoundTrip(c: Country)
    ensures ToCountry(ToEntity(c)) == c.(isCache := false, currencies := Some(c.currencies.GetOr([])))
    ensures SameCountry(ToCountry(ToEntity(c)), c)
  {
    CurrenciesRoundTrip(c.currencies.GetOr([]));
  }

  /** The entities inserted for a list of countries, in order. */
  function EntitiesFor(countries: seq<Country>): (es: seq<CountryEntity>)
    ensures |es| == |countries|
    ensures forall i :: 0 <= i < |es| ==> es[i] == ToEntity(countries[i]) && es[i].isCache
  {
    seq(|countries|, i requires 0 <= i < |countries| => ToEntity(countries[i]))
  }

  /** `clearExistingCache`: deletes every cached entity; a failed fetch deletes nothing. */
  function ClearExistingCache(store: EntityStore, fetchOk: bool): (r: EntityStore)
    ensures fetchOk ==> CachedEntries(r) == [] && OtherEntries(r) == OtherEntries(store)
    ensures !fetchOk ==> r == store
  {
    if fetchOk then
      var kept := OtherEntries(store);
      FilterKeepsAll(kept, IsNotCached);
      assert CachedEntries(kept) == [];
      kept
    else store
  }

  /** The outcome flags of the background context's work inside `cacheCountries`. */
  datatype CacheWrite = CacheWrite(clearFetchOk: bool, saveOk: bool)

  /**
   * `cacheCountries`: clears the cached snapshot, inserts one cached entity per
   * country, and saves the context; an unsaved context leaves the store as it was.
   */
  function CacheCountries(store: EntityStore, countries: seq<Country>, w: CacheWrite): (r: EntityStore)
    ensures !w.saveOk ==> r == store
    ensures OtherEntries(r) == OtherEntries(store)
    ensures w.saveOk && w.clearFetchOk ==> CachedEntries(r) == EntitiesFor(countries)
    ensures w.saveOk && !w.clearFetchOk ==> CachedEntries(r) == CachedEntries(store) + EntitiesFor(countries)
  {
    if !w.saveOk then store
    else
      var cleared := ClearExistingCache(store, w.clearFetchOk);
      var inserted := EntitiesFor(countries);
      FilterConcat(cleared, inserted, IsCached);
      FilterConcat(cleared, inserted, IsNotCached);
      FilterKeepsAll(inserted, IsCached);
      assert Filter(inserted, IsNotCached) == [];
      cleared + inserted
  }

  /**
   * `fetchCountriesFromCache`: the cached entities converted to countries; `noData`
   * when there are none, `decodingError` when the fetch itself fails.
   */
  function FetchCountriesFromCache(store: EntityStore, readOk: bool): (r: Result<seq<Country>, APIError>)
    ensures !readOk ==> r == Err(DecodingError)
    ensures readOk && CachedEntries(store) == [] ==> r == Err(NoData)
    ensures readOk && CachedEntries(store) != [] ==>
      r.Ok? && |r.value| == |CachedEntries(store)| &&
      forall i :: 0 <= i < |r.value| ==> r.value[i] == ToCountry(CachedEntries(store)[i])
  {
    if !readOk then Err(DecodingError)
    else
      var entities := CachedEntries(store);
      if entities == [] then Err(NoData)
      else Ok(seq(|entities|, i requires 0 <= i < |entities| => ToCountry(entities[i])))
  }

  /** The caller's result and the store once the detached caching task has run. */
  datatype FetchOutcome = FetchOutcome(result: Result<seq<Country>, APIError>, store: EntityStore)

  /**
   * `fetchAllCountriesWithCacheFallback`: a successful online fetch is returned as is
   * and re-cached by a detached task; after a failure the cache is read instead.
   */
  function FetchAllCountriesWithCacheFallback(online: Result<seq<Country>, APIError>, store: EntityStore,
                                              readOk: bool, w: CacheWrite): (o: FetchOutcome)
    ensures online.Ok? ==> o.result == online && o.store == CacheCountries(store, online.value, w)
    ensures online.Err? ==> o.store == store && o.result == FetchCountriesFromCache(store, readOk)
    ensures o.result.Err? ==> online.Err? && o.result.error in {DecodingError, NoData}
  {
    match online
    case Ok(countries) => FetchOutcome(Ok(countries), CacheCountries(store, countries, w))
    case Err(_) => FetchOutcome(FetchCountriesFromCache(store, readOk), store)
  }

  /** `cacheAllCountries`, the start-up pre-warm: a failed fetch is logged and leaves the store alone. */
  function CacheAllCountries(online: Result<seq<Country>, APIError>, store: EntityStore, w: CacheWrite): (r: EntityStore)
    ensures online.Err? ==> r == store
    ensures online.Ok? ==> r == CacheCountries(store, online.value, w)
    ensures OtherEntries(r) == OtherEntries(store)
  {
    match online
    case Ok(countries) => CacheCountries(store, countries, w)
    case Err(_) => store
  }

  /**
   * Read-through: once a successful fetch has been cached, a later failing fetch
   * returns that list (in order, `isCache` false, absent currency lists read back
   * empty), or `noData` when the list was empty.
   */
  lemma FallbackReturnsLastCachedList(countries: seq<Country>, store: EntityStore, failure: APIError,
                                      w: CacheWrite, readOk1: bool)
    ensures var cached := FetchAllCountriesWithCacheFallback(Ok(countries), store, readOk1,
                                                              CacheWrite(true, true)).store;
            var later := FetchAllCountriesWithCacheFallback(Err(failure), cached, true, w).result;
            && (countries == [] ==> later == Err(NoData))
            && (countries != [] ==>
                  && later.Ok?
                  && |later.value| == |countries|
                  && forall i :: 0 <= i < |countries| ==>
                       later.value[i] == countries[i].(isCache := false,
                                                       currencies := Some(countries[i].currencies.GetOr([]))))
  {
    var cached := CacheCountries(store, countries, CacheWrite(true, true));
    assert CachedEntries(cached) == EntitiesFor(countries);
    if countries != [] {
      var later := FetchCountriesFromCache(cached, true);
      forall i | 0 <= i < |countries|
        ensures later.value[i] == countries[i].(isCache := false,
                                                currencies := Some(countries[i].currencies.GetOr([])))
      {
        EntityRoundTrip(countries[i]);
      }
    }
  }
}

=== FILE: Coordinators.dfy ===
/** The default `childDidFinish` of the `Coordinator` protocol, with coordinators as reference ids. */
module Coordinators {
  import opened Wrappers
  import opened Seqs

  /** A coordinator object, identified by its reference (`===`). */
  type CoordinatorId = nat

  /** `xs` without its first occurrence of `x`; unchanged when `x` does not occur. */
  function RemoveFirst(xs: seq<CoordinatorId>, x: CoordinatorId): (r: seq<CoordinatorId>)
    ensures x !in xs ==> r == xs
    ensures x in xs ==> |r| == |xs| - 1
    ensures SubsequenceOf(r, xs)
  {
    if xs == [] then []
    else
      assert xs == [xs[0]] + xs[1..];
      if xs[0] == x then SubsequenceOfSelf(xs[1..]); xs[1..]
      else [xs[0]] + RemoveFirst(xs[1..], x)
  }

  /** Exactly one copy of `x` goes, when there is one; every other child keeps its count. */
  lemma {:induction false} RemoveFirstMultiset(xs: seq<CoordinatorId>, x: CoordinatorId)
    ensures multiset(RemoveFirst(xs, x)) == multiset(xs) - multiset{x}
  {
    if xs != [] {
      assert xs == [xs[0]] + xs[1..];
      if xs[0] != x {
        RemoveFirstMultiset(xs[1..], x);
      }
    }
  }

  /** Removing the first occurrence cuts the list at the first index holding `x`. */
  lemma {:induction false} RemoveFirstAt(xs: seq<CoordinatorId>, x: CoordinatorId, i: nat)
    requires i < |xs| && xs[i] == x
    requires forall k :: 0 <= k < i ==> xs[k] != x
    ensures RemoveFirst(xs, x) == xs[..i] + xs[i + 1..]
  {
    if i == 0 {
      assert xs[..i] + xs[i + 1..] == xs[1..];
    } else {
      var tail := xs[1..];
      RemoveFirstAt(tail, x, i - 1);
      calc {
        RemoveFirst(xs, x);
        [xs[0]] + RemoveFirst(tail, x);
        [xs[0]] + (tail[..i - 1] + tail[i..]);
        { assert [xs[0]] + tail[..i - 1] == xs[..i]; assert tail[i..] == xs[i + 1..]; }
        xs[..i] + xs[i + 1..];
      }
    }
  }

  /**
   * `childDidFinish`: scans the children in order and removes the first one identical
   * to `child`, then stops; a `nil` or absent child leaves the list as it is.
   */
  method ChildDidFinish(children: seq<CoordinatorId>, child: Option<CoordinatorId>)
    returns (remaining: seq<CoordinatorId>)
    ensures child.None? || child.value !in children ==> remaining == children
    ensures child.Some? ==> remaining == RemoveFirst(children, child.value)
    ensures |children| - 1 <= |remaining| <= |children|
  {
    remaining := children;
    var index := 0;
    while index < |children|
      invariant 0 <= index <= |children|
      invariant child.Some? ==> forall k :: 0 <= k < index ==> children[k] != child.value
      invariant remaining == children
    {
      if child.Some? && children[index] == child.value {
        RemoveFirstAt(children, child.value, index);
        remaining := children[..index] + children[index + 1..];
        return;
      }
      index := index + 1;
    }
  }
}

=== FILE: CountryDetail.dfy ===
/**
 * `CountryDetailViewModel`: display strings for one country and the save toggle.
 * `isSaved` follows the storage publisher, delivered right after each mutation.
 */
module CountryDetail {
  import opened Wrappers
  import opened Text
  import opened Models
  import Storage

  const NoCurrencyInformation: string := "No currency information"
  const NoCapitalInformation: string := "No capital information"

  /** One currency as shown: its name, then its symbol in parentheses when it has one. */
  function CurrencyLabel(c: Currency): (s: string)
    ensures c.symbol.None? ==> s == c.name
    ensures c.symbol.Some? ==> s == c.name + " (" + c.symbol.value + ")"
  {
    match c.symbol
    case Some(symbol) => c.name + " (" + symbol + ")"
    case None => c.name
  }

  /** The labels of a currency list, in order. */
  function Labels(cs: seq<Currency>): (ls: seq<string>)
    ensures |ls| == |cs|
    ensures forall i :: 0 <= i < |cs| ==> ls[i] == CurrencyLabel(cs[i])
  {
    seq(|cs|, i requires 0 <= i < |cs| => CurrencyLabel(cs[i]))
  }

  /** `formattedCurrencies`: the labels joined by ", ", or a fixed text when there are none. */
  function FormattedCurrencies(currencies: Option<seq<Currency>>): (s: string)
    ensures currencies.None? ==> s == NoCurrencyInformation
    ensures currencies == Some([]) ==> s == NoCurrencyInformation
    ensures currencies.Some? && |currencies.value| == 1 ==> s == CurrencyLabel(currencies.value[0])
  {
    match currencies
    case None => NoCurrencyInformation
    case Some(cs) => if cs == [] then NoCurrencyInformation else Join(Labels(cs), ", ")
  }

  /** One more currency at the end adds ", " and its label to the text. */
  lemma FormattedCurrenciesSnoc(cs: seq<Currency>, c: Currency)
    requires cs != []
    ensures FormattedCurrencies(Some(cs + [c])) == FormattedCurrencies(Some(cs)) + ", " + CurrencyLabel(c)
  {
    assert Labels(cs + [c]) == Labels(cs) + [CurrencyLabel(c)];
    JoinSnoc(Labels(cs), CurrencyLabel(c), ", ");
  }

  /** The detail-screen examples: one currency, two currencies, and none. */
  lemma FormattedCurrenciesScenario()
    ensures FormattedCurrencies(Some([Currency("EGP", "Egyptian pound", Some("£"))])) == "Egyptian pound (£)"
    ensures FormattedCurrencies(Some([Currency("USD", "United States Dollar", Some("$")),
                                      Currency("EUR", "Euro", Some("€"))]))
         == "United States Dollar ($), Euro (€)"
    ensures FormattedCurrencies(None) == "No currency information"
  {
  }

  /** `capital`: the capital when there is one, else a fixed text. */
  function Capital(country: Country): (s: string)
    ensures country.capital.Some? ==> s == country.capital.value
    ensures country.capital.None? ==> s == NoCapitalInformation
  {
    country.capital.GetOr(NoCapitalInformation)
  }

  /** The screen's state, together with the storage service it talks to. */
  datatype DetailViewModel = DetailViewModel(country: Country, isSaved: bool, storage: Storage.StorageState)

  /** `isSaved` reflects whether storage's latest list contains the country. */
  function Synced(d: DetailViewModel): (r: bool)
    ensures r <==> (d.isSaved <==> exists i :: 0 <= i < |d.storage.saved| && d.storage.saved[i].alpha3Code == d.country.alpha3Code)
  {
    d.isSaved == Storage.IsCountrySaved(d.storage, d.country)
  }

  /** `init`: `isSaved` starts as storage's answer for the country. */
  function Init(country: Country, storage: Storage.StorageState): (d: DetailViewModel)
    ensures Synced(d)
    ensures d.country == country && d.storage == storage
  {
    DetailViewModel(country, Storage.IsCountrySaved(storage, country), storage)
  }

  /**
   * `toggleSaved`: removes a saved country, otherwise saves it and swallows any error.
   * `isSaved` is recomputed whenever storage publishes a new list.
   */
  function ToggleSaved(d: DetailViewModel, encodeOk: bool): (r: DetailViewModel)
    ensures r.country == d.country
    ensures d.isSaved ==> r.storage == Storage.RemoveCountry(d.storage, d.country, encodeOk) && !r.isSaved
    ensures !d.isSaved ==> r.storage == Storage.SaveCountry(d.storage, d.country, encodeOk).state
    ensures Synced(d) ==> Synced(r)
  {
    if d.isSaved then
      var s := Storage.RemoveCountry(d.storage, d.country, encodeOk);
      d.(storage := s, isSaved := ContainsCountry(s.saved, d.country))
    else
      var a := Storage.SaveCountry(d.storage, d.country, encodeOk);
      if Storage.Published(a) then d.(storage := a.state, isSaved := ContainsCountry(a.state.saved, d.country))
      else d.(storage := a.state)
  }

  /** Toggling keeps the storage invariant. */
  lemma ToggleSavedPreservesValid(d: DetailViewModel, encodeOk: bool)
    requires Storage.Valid(d.storage)
    ensures Storage.Valid(ToggleSaved(d, encodeOk).storage)
  {
    if d.isSaved {
      Storage.RemovePreservesValid(d.storage, d.country, encodeOk);
    } else {
      Storage.SavePreservesValid(d.storage, d.country, encodeOk);
    }
  }

  /**
   * From unsaved with room to spare, one toggle saves the country and a second one
   * returns the screen and the saved list to where they started.
   */
  lemma ToggleTwiceRestores(d: DetailViewModel, ok1: bool, ok2: bool)
    requires Synced(d) && !d.isSaved && |d.storage.saved| < Storage.MaxSavedCountries
    ensures ToggleSaved(d, ok1).isSaved
    ensures !ToggleSaved(ToggleSaved(d, ok1), ok2).isSaved
    ensures ToggleSaved(ToggleSaved(d, ok1), ok2).storage.saved == d.storage.saved
  {
    Storage.RemoveUndoesSave(d.storage, d.country, ok1, ok2);
  }
}

=== FILE: CountryList.dfy ===
/**
 * `CountryListViewModel`: the search over the fetched catalog, the UI-side capacity
 * guard, and the first-run flow that adds the user's country. The storage service
 * is part of the state; its publisher is delivered right after each mutation.
 */
module CountryList {
  import opened Wrappers
  import opened Seqs
  import opened Text
  import opened Models
  import opened Network
  import opened Location
  import Storage

  /** The search test: the lower-cased name contains the lower-cased query. */
  predicate NameMatches(c: Country, query: string) {
    Contains(Lower(c.name), Lower(query))
  }

  /** `NameMatches` as the closure handed to `filter`. */
  function Matching(query: string): Country -> bool {
    (c: Country) => NameMatches(c, query)
  }

  /**
   * `searchCountries`: an empty query finds nothing; otherwise the catalog entries
   * whose names match, in catalog order.
   */
  function SearchCountries(catalog: seq<Country>, query: string): (r: seq<Country>)
    ensures query == "" ==> r == []
    ensures query != "" ==> forall i :: 0 <= i < |r| ==> r[i] in catalog && NameMatches(r[i], query)
    ensures query != "" ==> forall i :: 0 <= i < |catalog| && NameMatches(catalog[i], query) ==> catalog[i] in r
    ensures query != "" ==>
      forall x | x in catalog :: multiset(r)[x] == if NameMatches(x, query) then multiset(catalog)[x] else 0
    ensures SubsequenceOf(r, catalog)
  {
    if query == "" then [] else FilterCounts(catalog, Matching(query)); Filter(catalog, Matching(query))
  }

  /** Queries that lower-case alike find the same countries. */
  lemma SearchIgnoresCase(catalog: seq<Country>, q1: string, q2: string)
    requires Lower(q1) == Lower(q2)
    ensures SearchCountries(catalog, q1) == SearchCountries(catalog, q2)
  {
    assert |q1| == |Lower(q1)| == |Lower(q2)| == |q2|;
    FilterCongruent(catalog, Matching(q1), Matching(q2));
  }

  /** Searching for a query and for its lower-cased form give the same results. */
  lemma SearchLowerQuery(catalog: seq<Country>, query: string)
    ensures SearchCountries(catalog, Lower(query)) == SearchCountries(catalog, query)
  {
    LowerIdempotent(query);
    SearchIgnoresCase(catalog, Lower(query), query);
  }

  /** The catalog of the view-model tests: Egypt and the United Kingdom. */
  const Egypt: Country :=
    NewCountry("Egypt", Some("Cairo."), Some([Currency("EGP", "Egyptian pound", Some("£"))]),
               "🇪🇬", "EG", "EGY")

  const UnitedKingdom: Country :=
    NewCountry("United Kingdom", Some("London"), Some([Currency("GBP", "British Pound", Some("£"))]),
               "🇬🇧", "GB", "GBR")

  /** "United" finds only the United Kingdom. */
  lemma SearchScenario()
    ensures SearchCountries([Egypt, UnitedKingdom], "United") == [UnitedKingdom]
  {
    var catalog := [Egypt, UnitedKingdom];
    assert Lower("United") == "united";
    assert Lower("United Kingdom")[0..6] == "united";
    assert OccursAt(Lower("United Kingdom"), Lower("United"), 0);
    assert !NameMatches(Egypt, "United");
    assert catalog[1..] == [UnitedKingdom];
    assert Filter(catalog, Matching("United")) == [UnitedKingdom];
  }

  /** Over the same catalog, the empty query and a query no name contains find nothing. */
  lemma SearchFindsNothingScenario()
    ensures SearchCountries([Egypt, UnitedKingdom], "") == []
    ensures SearchCountries([Egypt, UnitedKingdom], "xyz") == []
  {
    assert Lower("Egypt") == "egypt";
    assert Lower("xyz") == "xyz";
    AbsentFirstChar(Lower("Egypt"), "xyz");
    assert Lower("United Kingdom") == "united kingdom";
    AbsentFirstChar(Lower("United Kingdom"), "xyz");
  }

  /** Why a first-run attempt to resolve the user's own country failed. */
  datatype UserCountryFailure = LocationFailed(error: LocationError) | LookupFailed(cause: APIError)

  /** The view model's `errorMessage`, by what it reports (the strings are cosmetic). */
  datatype Message =
    | CapacityMessage
    | StorageMessage(error: Storage.StorageError)
    | LocationMessage(failure: UserCountryFailure)
    | DefaultCountryMessage(cause: APIError)
    | FetchMessage(cause: APIError)

  /** The view model's observable state, together with the storage service it talks to. */
  datatype ListViewModel = ListViewModel(
    saved: seq<Country>,
    searchResults: seq<Country>,
    allCountries: seq<Country>,
    errorMessage: Option<Message>,
    storage: Storage.StorageState)

  /** The view model's copy of the saved list matches the storage service's. */
  predicate Synced(vm: ListViewModel) {
    vm.saved == vm.storage.saved
  }

  /** A settled query replaces `searchResults` with the search over the held catalog, and nothing else. */
  function ApplySearch(vm: ListViewModel, query: string): (r: ListViewModel)
    ensures r.searchResults == SearchCountries(vm.allCountries, query)
    ensures query == "" ==> r.searchResults == []
    ensures forall i :: 0 <= i < |r.searchResults| ==> NameMatches(r.searchResults[i], query)
    ensures SubsequenceOf(r.searchResults, vm.allCountries)
    ensures r.(searchResults := vm.searchResults) == vm
  {
    vm.(searchResults := SearchCountries(vm.allCountries, query))
  }

  /** `didReachMaxCountries`'s answer (true means "there is room") and the state it leaves. */
  datatype CapacityCheck = CapacityCheck(proceed: bool, vm: ListViewModel)

  /**
   * `didReachMaxCountries`: despite its name it answers "may proceed"; at or over the
   * limit it answers false and sets the capacity message, otherwise it changes nothing.
   */
  function DidReachMaxCountries(vm: ListViewModel): (r: CapacityCheck)
    ensures r.proceed <==> |vm.saved| < Storage.MaxSavedCountries
    ensures r.proceed ==> r.vm == vm
    ensures !r.proceed ==> r.vm == vm.(errorMessage := Some(CapacityMessage))
  {
    if |vm.saved| >= Storage.MaxSavedCountries then
      CapacityCheck(false, vm.(errorMessage := Some(CapacityMessage)))
    else CapacityCheck(true, vm)
  }

  /** A storage attempt's effect on the view model: the new list arrives only if it was assigned. */
  function Deliver(vm: ListViewModel, a: Storage.SaveAttempt): (r: ListViewModel)
    ensures r.storage == a.state
    ensures Storage.Published(a) ==> r.saved == a.state.saved
    ensures !Storage.Published(a) ==> r.saved == vm.saved
    ensures r.(storage := vm.storage, saved := vm.saved) == vm
  {
    if Storage.Published(a) then vm.(storage := a.state, saved := a.state.saved)
    else vm.(storage := a.state)
  }

  /**
   * `saveCountry`: at or over the limit storage is not called and the capacity
   * message is set; otherwise storage's save runs and any error it throws becomes
   * the message.
   */
  function SaveCountry(vm: ListViewModel, c: Country, encodeOk: bool): (r: ListViewModel)
    ensures |vm.saved| >= Storage.MaxSavedCountries ==> r == vm.(errorMessage := Some(CapacityMessage))
    ensures |vm.saved| < Storage.MaxSavedCountries ==>
      var a := Storage.SaveCountry(vm.storage, c, encodeOk);
      && r.storage == a.state
      && (a.error.Some? ==> r.errorMessage == Some(StorageMessage(a.error.value)))
      && (a.error.None? ==> r.errorMessage == vm.errorMessage && Storage.IsCountrySaved(r.storage, c))
    ensures r.allCountries == vm.allCountries && r.searchResults == vm.searchResults
    ensures Synced(vm) ==> Synced(r)
  {
    var check := DidReachMaxCountries(vm);
    if !check.proceed then check.vm
    else
      var a := Storage.SaveCountry(vm.storage, c, encodeOk);
      var vm' := Deliver(vm, a);
      match a.error
      case Some(e) => vm'.(errorMessage := Some(StorageMessage(e)))
      case None => vm'
  }

  /** `removeCountry`: delegates to storage, whose publisher then delivers the new list. */
  function RemoveCountry(vm: ListViewModel, c: Country, encodeOk: bool): (r: ListViewModel)
    ensures r.storage == Storage.RemoveCountry(vm.storage, c, encodeOk)
    ensures Synced(r) && !ContainsCountry(r.saved, c)
    ensures r.(storage := vm.storage, saved := vm.saved) == vm
  {
    var s := Storage.RemoveCountry(vm.storage, c, encodeOk);
    vm.(storage := s, saved := s.saved)
  }

  /** The view-model save keeps the storage invariant and the view model's copy in step. */
  lemma SaveCountryPreservesValid(vm: ListViewModel, c: Country, encodeOk: bool)
    requires Synced(vm) && Storage.Valid(vm.storage)
    ensures Synced(SaveCountry(vm, c, encodeOk)) && Storage.Valid(SaveCountry(vm, c, encodeOk).storage)
  {
  }

  /** The collaborators the first-run flow consults, as their outcomes. */
  datatype Environment = Environment(
    location: Result<string, LocationError>,
    fetchCountryByCode: string -> Result<Country, APIError>,
    fetchAllCountries: Result<seq<Country>, APIError>,
    encodeOk: bool)

  /** The state a step of the first-run flow leaves, with the country codes it looked up, in order. */
  datatype Flow = Flow(vm: ListViewModel, lookups: seq<string>)

  /** `try? storageService.saveCountry(country)`: the effect stays, the error is dropped. */
  function SaveQuietly(vm: ListViewModel, c: Country, encodeOk: bool): (r: ListViewModel)
    ensures r.storage == Storage.SaveCountry(vm.storage, c, encodeOk).state
    ensures r.errorMessage == vm.errorMessage && r.allCountries == vm.allCountries
    ensures r.(storage := vm.storage, saved := vm.saved) == vm
    ensures Synced(vm) ==> Synced(r)
  {
    Deliver(vm, Storage.SaveCountry(vm.storage, c, encodeOk))
  }

  /** `addDefaultCountry`: look up "EG" and save it quietly; a failed lookup sets a message. */
  function AddDefaultCountry(vm: ListViewModel, env: Environment): (r: Flow)
    ensures r.lookups == [DefaultCountryCode]
    ensures env.fetchCountryByCode(DefaultCountryCode).Ok? ==>
      r.vm.storage == Storage.SaveCountry(vm.storage, env.fetchCountryByCode(DefaultCountryCode).value, env.encodeOk).state
    ensures env.fetchCountryByCode(DefaultCountryCode).Err? ==>
      r.vm == vm.(errorMessage := Some(DefaultCountryMessage(env.fetchCountryByCode(DefaultCountryCode).error)))
    ensures env.fetchCountryByCode(DefaultCountryCode).Ok? ==>
      r.vm.errorMessage == vm.errorMessage && (Synced(vm) ==> Synced(r.vm))
    ensures r.vm.allCountries == vm.allCountries
    ensures r.vm.(storage := vm.storage, saved := vm.saved, errorMessage := vm.errorMessage) == vm
  {
    match env.fetchCountryByCode(DefaultCountryCode)
    case Ok(country) => Flow(SaveQuietly(vm, country, env.encodeOk), [DefaultCountryCode])
    case Err(e) => Flow(vm.(errorMessage := Some(DefaultCountryMessage(e))), [DefaultCountryCode])
  }

  /**
   * `addUserCountry`: the located country is looked up and saved quietly. Any failure
   * falls back to the default country; a failure other than a denied permission then
   * also reports itself, and that message is the one left standing.
   */
  function AddUserCountry(vm: ListViewModel, env: Environment): (r: Flow)
    ensures env.location.Err? ==> r.lookups == [DefaultCountryCode]
    ensures env.location.Ok? ==> 1 <= |r.lookups| <= 2 && r.lookups[0] == env.location.value
    ensures env.location.Ok? && env.fetchCountryByCode(env.location.value).Ok? ==>
      r.lookups == [env.location.value] &&
      r.vm.storage == Storage.SaveCountry(vm.storage, env.fetchCountryByCode(env.location.value).value, env.encodeOk).state
    ensures env.location.Ok? && env.fetchCountryByCode(env.location.value).Ok? ==>
      r.vm.errorMessage == vm.errorMessage && (Synced(vm) ==> Synced(r.vm))
    ensures env.location.Ok? && env.fetchCountryByCode(env.location.value).Err? ==>
      r.lookups == [env.location.value, DefaultCountryCode] &&
      r.vm.errorMessage == Some(LocationMessage(LookupFailed(env.fetchCountryByCode(env.location.value).error)))
    ensures env.location.Err? && env.location.error != PermissionDenied ==>
      r.vm.errorMessage == Some(LocationMessage(LocationFailed(env.location.error)))
    ensures env.location.Err? || env.fetchCountryByCode(env.location.value).Err? ==>
      r.vm.storage == AddDefaultCountry(vm, env).vm.storage && r.vm.saved == AddDefaultCountry(vm, env).vm.saved
    ensures env.location == Err(PermissionDenied) ==> r.vm == AddDefaultCountry(vm, env).vm
    ensures r.vm.allCountries == vm.allCountries
    ensures r.vm.(storage := vm.storage, saved := vm.saved, errorMessage := vm.errorMessage) == vm
  {
    match env.location
    case Ok(code) =>
      (match env.fetchCountryByCode(code)
       case Ok(country) => Flow(SaveQuietly(vm, country, env.encodeOk), [code])
       case Err(e) =>
         var fallback := AddDefaultCountry(vm, env);
         Flow(fallback.vm.(errorMessage := Some(LocationMessage(LookupFailed(e)))), [code] + fallback.lookups))
    case Err(PermissionDenied) => AddDefaultCountry(vm, env)
    case Err(e) =>
      var fallback := AddDefaultCountry(vm, env);
      Flow(fallback.vm.(errorMessage := Some(LocationMessage(LocationFailed(e)))), fallback.lookups)
  }

  /** `fetchAllCountries`: the catalog on success, a message on failure. */
  function FetchAllCountries(vm: ListViewModel, fetched: Result<seq<Country>, APIError>): (r: ListViewModel)
    ensures fetched.Ok? ==> r == vm.(allCountries := fetched.value)
    ensures fetched.Err? ==> r == vm.(errorMessage := Some(FetchMessage(fetched.error)))
  {
    match fetched
    case Ok(countries) => vm.(allCountries := countries)
    case Err(e) => vm.(errorMessage := Some(FetchMessage(e)))
  }

  /**
   * `loadInitialData`: reload the saved list from UserDefaults; only if it is empty,
   * try to add the user's country; only if no catalog is held yet, fetch it.
   */
  function LoadInitialData(vm: ListViewModel, env: Environment): (r: Flow)
    ensures Storage.LoadSavedCountries(vm.storage.stored) != [] ==>
      r.lookups == [] && r.vm.storage == vm.storage && r.vm.saved == Storage.LoadSavedCountries(vm.storage.stored)
    ensures Storage.LoadSavedCountries(vm.storage.stored) == [] && env.location.Err? ==>
      r.lookups == [DefaultCountryCode]
    ensures Storage.LoadSavedCountries(vm.storage.stored) == [] ==>
      r.lookups == AddUserCountry(vm.(saved := []), env).lookups &&
      r.vm.storage == AddUserCountry(vm.(saved := []), env).vm.storage
    ensures vm.allCountries != [] ==>
      r.vm.errorMessage == (if Storage.LoadSavedCountries(vm.storage.stored) == []
                            then AddUserCountry(vm.(saved := []), env).vm.errorMessage
                            else vm.errorMessage)
    ensures vm.allCountries != [] && Storage.LoadSavedCountries(vm.storage.stored) != [] ==>
      r.vm == vm.(saved := Storage.LoadSavedCountries(vm.storage.stored))
    ensures vm.allCountries != [] ==> r.vm.allCountries == vm.allCountries
    ensures vm.allCountries == [] && env.fetchAllCountries.Ok? ==> r.vm.allCountries == env.fetchAllCountries.value
    ensures vm.allCountries == [] && env.fetchAllCountries.Err? ==>
      r.vm.errorMessage == Some(FetchMessage(env.fetchAllCountries.error))
    ensures |r.vm.storage.saved| <= |vm.storage.saved| + 1
  {
    var loaded := vm.(saved := Storage.LoadSavedCountries(vm.storage.stored));
    var added := if loaded.saved == [] then AddUserCountry(loaded, env) else Flow(loaded, []);
    var fetched := if added.vm.allCountries == [] then FetchAllCountries(added.vm, env.fetchAllCountries) else added.vm;
    Flow(fetched, added.lookups)
  }

  /** The first-run flow keeps the storage invariant. */
  lemma LoadInitialDataPreservesValid(vm: ListViewModel, env: Environment)
    requires Storage.Valid(vm.storage)
    ensures Storage.Valid(LoadInitialData(vm, env).vm.storage)
  {
    var loaded := vm.(saved := Storage.LoadSavedCountries(vm.storage.stored));
    if loaded.saved == [] {
      match env.location
      case Ok(code) =>
        if env.fetchCountryByCode(code).Ok? {
          Storage.SavePreservesValid(vm.storage, env.fetchCountryByCode(code).value, env.encodeOk);
        }
      case Err(_) =>
    }
    if env.fetchCountryByCode(DefaultCountryCode).Ok? {
      Storage.SavePreservesValid(vm.storage, env.fetchCountryByCode(DefaultCountryCode).value, env.encodeOk);
    }
  }

  /**
   * First run with nothing saved and no usable location: the country fetched for
   * "EG" ends up as the one saved entry, and no other code is looked up.
   */
  lemma FirstRunFallsBackToDefault(stored: Storage.StoredData, env: Environment, catalog: seq<Country>)
    requires Storage.LoadSavedCountries(stored) == []
    requires env.location.Err?
    requires env.fetchCountryByCode(DefaultCountryCode).Ok?
    ensures var vm := ListViewModel([], [], catalog, None, Storage.Init(stored));
            var r := LoadInitialData(vm, env);
            && r.lookups == [DefaultCountryCode]
            && r.vm.storage.saved == [env.fetchCountryByCode(DefaultCountryCode).value]
            && Synced(r.vm)
  {
  }

  /**
   * First run with nothing saved and a located country that is found: only that code
   * is looked up, it becomes the single saved entry, and no message is set.
   */
  lemma FirstRunSavesLocatedCountry(stored: Storage.StoredData, env: Environment, catalog: seq<Country>)
    requires Storage.LoadSavedCountries(stored) == []
    requires env.location.Ok? && env.fetchCountryByCode(env.location.value).Ok?
    requires catalog != [] || env.fetchAllCountries.Ok?
    ensures var vm := ListViewModel([], [], catalog, None, Storage.Init(stored));
            var r := LoadInitialData(vm, env);
            && r.lookups == [env.location.value]
            && r.vm.storage.saved == [env.fetchCountryByCode(env.location.value).value]
            && Synced(r.vm)
            && r.vm.errorMessage == None
  {
  }

  /**
   * First run with nothing saved, a located country whose lookup fails and a default
   * lookup that succeeds: both codes are looked up in that order, "EG" is saved, and
   * the lookup failure is the message left standing.
   */
  lemma FirstRunLookupFailureFallsBack(stored: Storage.StoredData, env: Environment, catalog: seq<Country>)
    requires Storage.LoadSavedCountries(stored) == []
    requires env.location.Ok? && env.fetchCountryByCode(env.location.value).Err?
    requires env.fetchCountryByCode(DefaultCountryCode).Ok?
    requires catalog != [] || env.fetchAllCountries.Ok?
    ensures var vm := ListViewModel([], [], catalog, None, Storage.Init(stored));
            var r := LoadInitialData(vm, env);
            && r.lookups == [env.location.value, DefaultCountryCode]
            && r.vm.storage.saved == [env.fetchCountryByCode(DefaultCountryCode).value]
            && Synced(r.vm)
            && r.vm.errorMessage == Some(LocationMessage(LookupFailed(env.fetchCountryByCode(env.location.value).error)))
  {
  }
}

=== FILE: Location.dfy ===
/** The location collaborator's vocabulary: its errors and the fallback country code. */
module Location {

  /** `LocationError`. */
  datatype LocationError = PermissionDenied | LocationNotFound | UnknownError

  /** `LocationConstants.defaultCountryCode`, used whenever the user's own country cannot be resolved. */
  const DefaultCountryCode: string := "EG"
}

=== FILE: Models.dfy ===
/** The app's value types: `Country` and its supporting `Currency` record. */
module Models {
  import opened Wrappers

  /** A currency of a country; Swift's `Identifiable` id is its `code`. */
  datatype Currency = Currency(code: string, name: string, symbol: Option<string>)

  /**
   * A country record. `isCache` marks entries that came from the offline catalog
   * snapshot; it is not part of the serialised form. The `UUID` id is not modelled.
   */
  datatype Country = Country(
    name: string,
    capital: Option<string>,
    currencies: Option<seq<Currency>>,
    flag: string,
    alpha2Code: string,
    alpha3Code: string,
    isCache: bool)

  /** The memberwise initialiser: every field as given, `isCache` at its default. */
  function NewCountry(name: string, capital: Option<string>, currencies: Option<seq<Currency>>,
                      flag: string, alpha2Code: string, alpha3Code: string): (c: Country)
    ensures !c.isCache
    ensures c.name == name && c.capital == capital && c.currencies == currencies
    ensures c.flag == flag && c.alpha2Code == alpha2Code && c.alpha3Code == alpha3Code
  {
    Country(name, capital, currencies, flag, alpha2Code, alpha3Code, false)
  }

  /** Swift's `==` on `Country`: two records are the same country when their alpha-3 codes match. */
  function SameCountry(a: Country, b: Country): (r: bool)
    ensures r <==> a.(name := b.name, capital := b.capital, currencies := b.currencies, flag := b.flag,
                      alpha2Code := b.alpha2Code, isCache := b.isCache) == b
  {
    a.alpha3Code == b.alpha3Code
  }

  /** `==` is an equivalence relation, since it is string equality of one field. */
  lemma SameCountryIsEquivalence(a: Country, b: Country, c: Country)
    ensures SameCountry(a, a)
    ensures SameCountry(a, b) <==> SameCountry(b, a)
    ensures SameCountry(a, b) && SameCountry(b, c) ==> SameCountry(a, c)
  {
  }

  /** Changing any field other than `alpha3Code` leaves a country equal to the original. */
  lemma SameCountryIgnoresOtherFields(c: Country, name: string, capital: Option<string>,
                                      currencies: Option<seq<Currency>>, flag: string,
                                      alpha2Code: string, isCache: bool)
    ensures SameCountry(c, c.(name := name, capital := capital, currencies := currencies,
                              flag := flag, alpha2Code := alpha2Code, isCache := isCache))
  {
  }

  /** Swift's `Array.contains` on countries: some entry is `==` to `c`. */
  predicate ContainsCountry(list: seq<Country>, c: Country) {
    exists i | 0 <= i < |list| :: SameCountry(list[i], c)
  }

  /** No two entries of `list` are `==`. */
  ghost predicate DistinctCodes(list: seq<Country>) {
    forall i, j :: 0 <= i < j < |list| ==> list[i].alpha3Code != list[j].alpha3Code
  }

  /** The serialised form of a country: exactly the fields named in its `CodingKeys`. */
  datatype CountryRecord = CountryRecord(
    name: string,
    capital: Option<string>,
    currencies: Option<seq<Currency>>,
    flag: string,
    alpha2Code: string,
    alpha3Code: string)

  /** `Encodable`: writes the six coded fields and drops `isCache`. */
  function Encode(c: Country): (r: CountryRecord)
    ensures r.alpha3Code == c.alpha3Code
  {
    CountryRecord(c.name, c.capital, c.currencies, c.flag, c.alpha2Code, c.alpha3Code)
  }

  /** `Decodable`: reads the six coded fields; `isCache` takes its default. */
  function Decode(r: CountryRecord): (c: Country)
    ensures !c.isCache
    ensures c.alpha3Code == r.alpha3Code
  {
    NewCountry(r.name, r.capital, r.currencies, r.flag, r.alpha2Code, r.alpha3Code)
  }

  /** A round trip through the serialised form keeps every coded field and clears `isCache`. */
  lemma DecodeEncode(c: Country)
    ensures Decode(Encode(c)) == c.(isCache := false)
    ensures SameCountry(Decode(Encode(c)), c)
  {
  }

  /** Every serialised record is reproduced exactly by decoding and re-encoding. */
  lemma EncodeDecode(r: CountryRecord)
    ensures Encode(Decode(r)) == r
  {
  }

  /** Encodes a whole list, entry by entry (Swift's `JSONEncoder` on `[Country]`). */
  function EncodeAll(list: seq<Country>): (rs: seq<CountryRecord>)
    ensures |rs| == |list|
    ensures forall i :: 0 <= i < |list| ==> rs[i] == Encode(list[i])
  {
    seq(|list|, i requires 0 <= i < |list| => Encode(list[i]))
  }

  /** Decodes a whole list, entry by entry (Swift's `JSONDecoder` on `[Country]`). */
  function DecodeAll(rs: seq<CountryRecord>): (list: seq<Country>)
    ensures |list| == |rs|
    ensures forall i :: 0 <= i < |rs| ==> list[i] == Decode(rs[i])
  {
    seq(|rs|, i requires 0 <= i < |rs| => Decode(rs[i]))
  }

  /** A list survives a round trip entry by entry, in order, with every `isCache` cleared. */
  lemma DecodeAllEncodeAll(list: seq<Country>)
    ensures |DecodeAll(EncodeAll(list))| == |list|
    ensures forall i :: 0 <= i < |list| ==> DecodeAll(EncodeAll(list))[i] == list[i].(isCache := false)
  {
  }
}

=== FILE: Network.dfy ===
/**
 * `NetworkService.execute`: builds a request, sends it, and classifies the outcome
 * into an `APIError` stage by stage. The URL session and the request's decoder are
 * parameters.
 */
module Network {
  import opened Wrappers

  newtype Byte = x: int | 0 <= x < 256
  type Bytes = seq<Byte>

  /** The underlying error a failed transport reports (an `NSError`'s domain and code). */
  datatype TransportError = TransportError(domain: string, code: int)

  /** `APIError`. */
  datatype APIError =
    | InvalidURL
    | InvalidResponse
    | DecodingError
    | NetworkError(cause: TransportError)
    | ServerError(statusCode: int)
    | NoData

  /** `HTTPMethod`, a string-backed enum. */
  datatype HTTPMethod = Get | Post | Put | Delete

  /** The enum's raw value, sent as the request's HTTP method. */
  function RawValue(m: HTTPMethod): (raw: string)
    ensures m == Get <==> raw == "GET"
    ensures m == Post <==> raw == "POST"
    ensures m == Put <==> raw == "PUT"
    ensures m == Delete <==> raw == "DELETE"
  {
    match m
    case Get => "GET"
    case Post => "POST"
    case Put => "PUT"
    case Delete => "DELETE"
  }

  /** The synthesised `init?(rawValue:)`: the method with that raw value, if any. */
  function FromRawValue(raw: string): (m: Option<HTTPMethod>)
    ensures m.Some? ==> RawValue(m.value) == raw
    ensures m.None? ==> raw !in {"GET", "POST", "PUT", "DELETE"}
  {
    if raw == "GET" then Some(Get)
    else if raw == "POST" then Some(Post)
    else if raw == "PUT" then Some(Put)
    else if raw == "DELETE" then Some(Delete)
    else None
  }

  /** Raw values identify methods: reading back a method's raw value gives the method. */
  lemma RawValueRoundTrip(m: HTTPMethod)
    ensures FromRawValue(RawValue(m)) == Some(m)
  {
  }

  /**
   * A `NetworkRequest`: its `url` getter (`None` when it throws), method, headers and
   * decoder (`None` when decoding throws).
   */
  datatype NetworkRequest<T> = NetworkRequest(
    url: Option<string>,
    httpMethod: HTTPMethod,
    headers: map<string, string>,
    decode: Bytes -> Option<T>)

  /** A request that relies on the protocol extension's defaults: GET and no headers. */
  function DefaultRequest<T>(url: Option<string>, decode: Bytes -> Option<T>): (r: NetworkRequest<T>)
    ensures r.httpMethod == Get && RawValue(r.httpMethod) == "GET"
    ensures r.headers == map[]
    ensures r.url == url
  {
    NetworkRequest(url, Get, map[], decode)
  }

  /** The `URLRequest` handed to the session. */
  datatype URLRequest = URLRequest(url: string, httpMethod: string, headerFields: map<string, string>)

  /** What `URLSession.data(for:)` produced. */
  datatype URLResponse = HTTPURLResponse(statusCode: int) | OtherResponse
  datatype Transport = TransportFailed(error: TransportError) | Received(data: Bytes, response: URLResponse)

  /** The request built from a resolved URL: raw method name and every header. */
  function BuildRequest<T>(req: NetworkRequest<T>, url: string): (u: URLRequest)
    ensures u.url == url
    ensures FromRawValue(u.httpMethod) == Some(req.httpMethod)
    ensures u.headerFields == req.headers
  {
    RawValueRoundTrip(req.httpMethod);
    URLRequest(url, RawValue(req.httpMethod), req.headers)
  }

  /** `(200...299).contains(statusCode)`. */
  predicate IsSuccessStatus(statusCode: int) {
    200 <= statusCode <= 299
  }

  /** What the session returns for the request built from a request whose URL resolved. */
  function Sent<T>(req: NetworkRequest<T>, session: URLRequest -> Transport): Transport
    requires req.url.Some?
  {
    session(BuildRequest(req, req.url.value))
  }

  /**
   * `execute`: the first failing stage, in the order URL, transport, response type,
   * status, decoding, decides the error; otherwise the decoded value is returned.
   */
  function Execute<T>(req: NetworkRequest<T>, session: URLRequest -> Transport): (r: Result<T, APIError>)
    ensures req.url.None? ==> r == Err(InvalidURL)
    ensures req.url.Some? && Sent(req, session).TransportFailed? ==>
      r == Err(NetworkError(Sent(req, session).error))
    ensures req.url.Some? && Sent(req, session).Received? && Sent(req, session).response.OtherResponse? ==>
      r == Err(InvalidResponse)
    ensures req.url.Some? && Sent(req, session).Received? && Sent(req, session).response.HTTPURLResponse? ==>
      var status := Sent(req, session).response.statusCode;
      (!IsSuccessStatus(status) ==> r == Err(ServerError(status))) &&
      (IsSuccessStatus(status) && req.decode(Sent(req, session).data).None? ==> r == Err(DecodingError)) &&
      (IsSuccessStatus(status) && req.decode(Sent(req, session).data).Some? ==>
         r == Ok(req.decode(Sent(req, session).data).value))
  {
    match req.url
    case None => Err(InvalidURL)
    case Some(url) =>
      match session(BuildRequest(req, url))
      case TransportFailed(e) => Err(NetworkError(e))
      case Received(data, response) =>
        match response
        case OtherResponse => Err(InvalidResponse)
        case HTTPURLResponse(status) =>
          if !IsSuccessStatus(status) then Err(ServerError(status))
          else
            match req.decode(data)
            case None => Err(DecodingError)
            case Some(v) => Ok(v)
  }

  /** Every stage passes: a URL, a transport reply, an HTTP response, a 2xx status, a decodable body. */
  ghost predicate AllStagesPass<T>(req: NetworkRequest<T>, session: URLRequest -> Transport) {
    && req.url.Some?
    && Sent(req, session).Received?
    && Sent(req, session).response.HTTPURLResponse?
    && IsSuccessStatus(Sent(req, session).response.statusCode)
    && req.decode(Sent(req, session).data).Some?
  }

  /** `execute` returns a value exactly when every stage passes, and then it is the decoded body. */
  lemma ExecuteSucceedsIffAllStagesPass<T>(req: NetworkRequest<T>, session: URLRequest -> Transport)
    ensures Execute(req, session).Ok? <==> AllStagesPass(req, session)
    ensures Execute(req, session).Ok? ==> Execute(req, session).value == req.decode(Sent(req, session).data).value
  {
  }

  /** An unbuildable URL ends the call: neither the session nor the decoder affects the outcome. */
  lemma InvalidURLStopsEarly<T>(req: NetworkRequest<T>, decode: Bytes -> Option<T>,
                                s1: URLRequest -> Transport, s2: URLRequest -> Transport)
    requires req.url.None?
    ensures Execute(req, s1) == Execute(req.(decode := decode), s2) == Err(InvalidURL)
  {
  }

  /** A status outside 200...299 is reported with that exact status, whatever the decoder would do. */
  lemma ServerErrorSkipsDecoding<T>(req: NetworkRequest<T>, decode: Bytes -> Option<T>,
                                    session: URLRequest -> Transport)
    requires req.url.Some? && Sent(req, session).Received?
    requires Sent(req, session).response.HTTPURLResponse?
    requires !IsSuccessStatus(Sent(req, session).response.statusCode)
    ensures Execute(req, session) == Execute(req.(decode := decode), session)
                                  == Err(ServerError(Sent(req, session).response.statusCode))
  {
  }

  /** A transport failure is reported with its cause, whatever the decoder would do. */
  lemma TransportFailureSkipsDecoding<T>(req: NetworkRequest<T>, decode: Bytes -> Option<T>,
                                         session: URLRequest -> Transport)
    requires req.url.Some? && Sent(req, session).TransportFailed?
    ensures Execute(req, session) == Execute(req.(decode := decode), session)
                                  == Err(NetworkError(Sent(req, session).error))
  {
  }
}

=== FILE: Seqs.dfy ===
/** Order-preserving filtering over sequences (Swift's `filter` and `removeAll(where:)`). */
module Seqs {

  /** `xs` is obtained from `ys` by deleting zero or more elements, keeping the order of the rest. */
  ghost predicate SubsequenceOf<T>(xs: seq<T>, ys: seq<T>)
    decreases |ys|
  {
    if xs == [] then true
    else if ys == [] then false
    else (xs[0] == ys[0] && SubsequenceOf(xs[1..], ys[1..])) || SubsequenceOf(xs, ys[1..])
  }

  /** Every sequence is a subsequence of itself. */
  lemma {:induction false} SubsequenceOfSelf<T>(xs: seq<T>)
    ensures SubsequenceOf(xs, xs)
    decreases |xs|
  {
    if xs != [] {
      SubsequenceOfSelf(xs[1..]);
    }
  }

  /** The elements of `xs` that satisfy `p`, in their original order. */
  function Filter<T>(xs: seq<T>, p: T -> bool): (r: seq<T>)
    ensures |r| <= |xs|
    ensures forall i :: 0 <= i < |r| ==> r[i] in xs && p(r[i])
    ensures forall i :: 0 <= i < |xs| && p(xs[i]) ==> xs[i] in r
    ensures SubsequenceOf(r, xs)
  {
    if xs == [] then []
    else if p(xs[0]) then [xs[0]] + Filter(xs[1..], p)
    else Filter(xs[1..], p)
  }

  /** Filtering keeps every copy of an element that passes and no copy of one that fails. */
  lemma {:induction false} FilterCount<T>(xs: seq<T>, p: T -> bool, x: T)
    ensures multiset(Filter(xs, p))[x] == if p(x) then multiset(xs)[x] else 0
  {
    if xs != [] {
      assert xs == [xs[0]] + xs[1..];
      FilterCount(xs[1..], p, x);
    }
  }

  /** `FilterCount` for every element of the input at once. */
  lemma FilterCounts<T>(xs: seq<T>, p: T -> bool)
    ensures forall x | x in xs :: multiset(Filter(xs, p))[x] == if p(x) then multiset(xs)[x] else 0
  {
    forall x | x in xs
      ensures multiset(Filter(xs, p))[x] == if p(x) then multiset(xs)[x] else 0
    {
      FilterCount(xs, p, x);
    }
  }

  /** Filtering a concatenation filters each part. */
  lemma {:induction false} FilterConcat<T>(a: seq<T>, b: seq<T>, p: T -> bool)
    ensures Filter(a + b, p) == Filter(a, p) + Filter(b, p)
  {
    if a != [] {
      assert (a + b)[0] == a[0];
      assert (a + b)[1..] == a[1..] + b;
      FilterConcat(a[1..], b, p);
      if p(a[0]) {
        assert Filter(a + b, p) == [a[0]] + (Filter(a[1..], p) + Filter(b, p));
      }
    } else {
      assert a + b == b;
    }
  }

  /** A filter that every element passes changes nothing. */
  lemma {:induction false} FilterKeepsAll<T>(xs: seq<T>, p: T -> bool)
    ensures (forall i :: 0 <= i < |xs| ==> p(xs[i])) ==> Filter(xs, p) == xs
  {
    if xs != [] {
      FilterKeepsAll(xs[1..], p);
      assert [xs[0]] + xs[1..] == xs;
    }
  }

  /** Filters whose predicates agree on every element give the same result. */
  lemma {:induction false} FilterCongruent<T>(xs: seq<T>, p: T -> bool, q: T -> bool)
    requires forall i :: 0 <= i < |xs| ==> p(xs[i]) == q(xs[i])
    ensures Filter(xs, p) == Filter(xs, q)
  {
    if xs != [] {
      FilterCongruent(xs[1..], p, q);
    }
  }
}

=== FILE: Storage.dfy ===
/**
 * `StorageService`: the bounded favourites list, mirrored in memory and written
 * to UserDefaults as an encoded array after every mutation.
 */
module Storage {
  import opened Wrappers
  import opened Seqs
  import opened Models

  /** `StorageConstants.maxSavedCountries`. */
  const MaxSavedCountries := 5

  datatype StorageError = SaveFailed | LoadFailed | CountryLimitReached | CountryAlreadyExists

  /** What UserDefaults holds under the saved-countries key. */
  datatype StoredData = Absent | Undecodable | Encoded(records: seq<CountryRecord>)

  /** `loadSavedCountries`: the decoded list, or `[]` when nothing is stored or it does not decode. */
  function LoadSavedCountries(d: StoredData): (list: seq<Country>)
    ensures !d.Encoded? ==> list == []
    ensures d.Encoded? ==> |list| == |d.records|
    ensures d.Encoded? ==> forall i :: 0 <= i < |list| ==> Encode(list[i]) == d.records[i] && !list[i].isCache
  {
    match d
    case Encoded(records) => DecodeAll(records)
    case _ => []
  }

  /** The value written back to UserDefaults for an in-memory list. */
  function Persist(list: seq<Country>): (d: StoredData)
    ensures d.Encoded? && |d.records| == |list|
    ensures forall i :: 0 <= i < |list| ==> d.records[i] == Encode(list[i])
  {
    Encoded(EncodeAll(list))
  }

  /** Reading back what was written yields the same countries in the same order, `isCache` cleared. */
  lemma LoadAfterPersist(list: seq<Country>)
    ensures |LoadSavedCountries(Persist(list))| == |list|
    ensures forall i :: 0 <= i < |list| ==>
      LoadSavedCountries(Persist(list))[i] == list[i].(isCache := false)
  {
  }

  /** The service: its published in-memory list and what UserDefaults currently holds. */
  datatype StorageState = StorageState(saved: seq<Country>, stored: StoredData)

  /** `init()`: the in-memory list starts as whatever loads from UserDefaults. */
  function Init(stored: StoredData): (s: StorageState)
    ensures s.stored == stored
    ensures s.saved == LoadSavedCountries(stored)
  {
    StorageState(LoadSavedCountries(stored), stored)
  }

  /** `isCountrySaved`: some saved entry has the same alpha-3 code. */
  function IsCountrySaved(s: StorageState, c: Country): (r: bool)
    ensures r <==> exists i :: 0 <= i < |s.saved| && s.saved[i].alpha3Code == c.alpha3Code
  {
    ContainsCountry(s.saved, c)
  }

  /** The state after `saveCountry`, with the error it threw, if any. */
  datatype SaveAttempt = SaveAttempt(state: StorageState, error: Option<StorageError>)

  /**
   * `saveCountry`: a duplicate is rejected before the limit is checked; otherwise the
   * country is appended in memory and the list is encoded and written. `encodeOk`
   * says whether encoding succeeded; a failure is reported but the append stays.
   */
  function SaveCountry(s: StorageState, c: Country, encodeOk: bool): (a: SaveAttempt)
    ensures a.error.None? <==> !IsCountrySaved(s, c) && |s.saved| < MaxSavedCountries && encodeOk
    ensures IsCountrySaved(s, c) ==> a == SaveAttempt(s, Some(CountryAlreadyExists))
    ensures !IsCountrySaved(s, c) && |s.saved| >= MaxSavedCountries ==>
      a == SaveAttempt(s, Some(CountryLimitReached))
    ensures !IsCountrySaved(s, c) && |s.saved| < MaxSavedCountries ==>
      a.state.saved == s.saved + [c] && IsCountrySaved(a.state, c)
    ensures !IsCountrySaved(s, c) && |s.saved| < MaxSavedCountries && !encodeOk ==> a.error == Some(SaveFailed)
    ensures a.error.None? ==> a.state.stored == Persist(a.state.saved)
    ensures a.error == Some(SaveFailed) ==> a.state.saved == s.saved + [c] && a.state.stored == s.stored
  {
    if IsCountrySaved(s, c) then SaveAttempt(s, Some(CountryAlreadyExists))
    else if |s.saved| >= MaxSavedCountries then SaveAttempt(s, Some(CountryLimitReached))
    else
      var saved := s.saved + [c];
      assert SameCountry(saved[|s.saved|], c);
      if encodeOk then SaveAttempt(StorageState(saved, Persist(saved)), None)
      else SaveAttempt(StorageState(saved, s.stored), Some(SaveFailed))
  }

  /**
   * The attempt assigned the `@Published` list, so subscribers receive it: the
   * append happened (even when writing it back then failed).
   */
  predicate Published(a: SaveAttempt) {
    a.error.None? || a.error == Some(SaveFailed)
  }

  /** An attempt that publishes nothing changed nothing. */
  lemma UnpublishedAttemptChangesNothing(s: StorageState, c: Country, encodeOk: bool)
    ensures !Published(SaveCountry(s, c, encodeOk)) ==> SaveCountry(s, c, encodeOk).state == s
    ensures Published(SaveCountry(s, c, encodeOk)) ==> SaveCountry(s, c, encodeOk).state.saved == s.saved + [c]
  {
  }

  /** `after` holds no copy of an entry `==` to `c` and every copy of every other entry of `before`. */
  ghost predicate DropsEveryCopy(before: seq<Country>, after: seq<Country>, c: Country) {
    forall x | x in before :: multiset(after)[x] == if SameCountry(x, c) then 0 else multiset(before)[x]
  }

  /** The `removeAll` predicate: keep entries that are not `==` to `c`. */
  function NotSameAs(c: Country): Country -> bool {
    x => !SameCountry(x, c)
  }

  /**
   * `removeCountry`: drops every entry `==` to `c`, then writes the list back; a
   * failed encoding is only logged, so the in-memory removal stands. Never throws.
   */
  function RemoveCountry(s: StorageState, c: Country, encodeOk: bool): (s': StorageState)
    ensures !IsCountrySaved(s', c)
    ensures forall i :: 0 <= i < |s'.saved| ==> s'.saved[i] in s.saved
    ensures forall i :: 0 <= i < |s.saved| && !SameCountry(s.saved[i], c) ==> s.saved[i] in s'.saved
    ensures SubsequenceOf(s'.saved, s.saved)
    ensures DropsEveryCopy(s.saved, s'.saved, c)
    ensures !IsCountrySaved(s, c) ==> s'.saved == s.saved
    ensures encodeOk ==> s'.stored == Persist(s'.saved)
    ensures !encodeOk ==> s'.stored == s.stored
  {
    var saved := Filter(s.saved, NotSameAs(c));
    FilterKeepsAll(s.saved, NotSameAs(c));
    FilterCounts(s.saved, NotSameAs(c));
    StorageState(saved, if encodeOk then Persist(saved) else s.stored)
  }

  /** The favourites invariant: at most five entries, no two `==`. */
  ghost predicate Bounded(list: seq<Country>) {
    |list| <= MaxSavedCountries && DistinctCodes(list)
  }

  /** Both the in-memory list and the list UserDefaults would load keep the invariant. */
  ghost predicate Valid(s: StorageState) {
    Bounded(s.saved) && Bounded(LoadSavedCountries(s.stored))
  }

  /** Writing a bounded list stores a bounded list. */
  lemma PersistKeepsBounded(list: seq<Country>)
    requires Bounded(list)
    ensures Bounded(LoadSavedCountries(Persist(list)))
  {
  }

  /** Filtering never introduces two entries with the same code. */
  lemma {:induction false} FilterKeepsDistinct(list: seq<Country>, p: Country -> bool)
    requires DistinctCodes(list)
    ensures DistinctCodes(Filter(list, p))
    decreases |list|
  {
    if list != [] {
      var rest := Filter(list[1..], p);
      assert DistinctCodes(list[1..]) by {
        forall i, j | 0 <= i < j < |list[1..]|
          ensures list[1..][i].alpha3Code != list[1..][j].alpha3Code
        {
          assert list[1..][i] == list[i + 1] && list[1..][j] == list[j + 1];
        }
      }
      FilterKeepsDistinct(list[1..], p);
      if p(list[0]) {
        var r := [list[0]] + rest;
        forall i, j | 0 <= i < j < |r|
          ensures r[i].alpha3Code != r[j].alpha3Code
        {
          if i == 0 {
            assert r[j] == rest[j - 1];
            assert rest[j - 1] in list[1..];
            var k :| 0 <= k < |list[1..]| && list[1..][k] == rest[j - 1];
            assert list[k + 1] == rest[j - 1];
          } else {
            assert r[i] == rest[i - 1] && r[j] == rest[j - 1];
          }
        }
      }
    }
  }

  /** The service starts valid when what UserDefaults holds is a bounded list. */
  lemma InitValid(stored: StoredData)
    requires Bounded(LoadSavedCountries(stored))
    ensures Valid(Init(stored))
  {
  }

  /** `saveCountry` keeps the invariant, whether it succeeds, is rejected, or fails to persist. */
  lemma SavePreservesValid(s: StorageState, c: Country, encodeOk: bool)
    requires Valid(s)
    ensures Valid(SaveCountry(s, c, encodeOk).state)
  {
  }

  /** `removeCountry` keeps the invariant. */
  lemma RemovePreservesValid(s: StorageState, c: Country, encodeOk: bool)
    requires Valid(s)
    ensures Valid(RemoveCountry(s, c, encodeOk))
  {
    var s' := RemoveCountry(s, c, encodeOk);
    FilterKeepsDistinct(s.saved, NotSameAs(c));
    assert s'.saved == Filter(s.saved, NotSameAs(c));
    if encodeOk {
      PersistKeepsBounded(s'.saved);
    }
  }

  /** Saving the same country twice: the second call reports a duplicate and changes nothing. */
  lemma SaveTwiceRejectsDuplicate(s: StorageState, c: Country, ok1: bool, ok2: bool)
    requires !IsCountrySaved(s, c) && |s.saved| < MaxSavedCountries
    ensures var first := SaveCountry(s, c, ok1).state;
            SaveCountry(first, c, ok2) == SaveAttempt(first, Some(CountryAlreadyExists))
  {
  }

  /** Removing a country that was just appended gives back the list as it was before the save. */
  lemma {:induction false} RemoveUndoesSave(s: StorageState, c: Country, ok1: bool, ok2: bool)
    requires !IsCountrySaved(s, c) && |s.saved| < MaxSavedCountries
    ensures RemoveCountry(SaveCountry(s, c, ok1).state, c, ok2).saved == s.saved
  {
    var saved := s.saved + [c];
    assert SaveCountry(s, c, ok1).state.saved == saved;
    FilterConcat(s.saved, [c], NotSameAs(c));
    forall i | 0 <= i < |s.saved|
      ensures NotSameAs(c)(s.saved[i])
    {
      assert !SameCountry(s.saved[i], c);
    }
    FilterKeepsAll(s.saved, NotSameAs(c));
    assert Filter([c], NotSameAs(c)) == [];
  }
}

=== FILE: Text.dfy ===
/** The string operations the view models rely on, over `string = seq<char>`. */
module Text {

  /** Lower-cases one ASCII letter; every other character is left alone. */
  function LowerChar(ch: char): (r: char)
    ensures !('A' <= r <= 'Z')
    ensures !('A' <= ch <= 'Z') ==> r == ch
  {
    if 'A' <= ch <= 'Z' then (ch as int + 32) as char else ch
  }

  /** ASCII-only stand-in for Swift's `lowercased()`. */
  function Lower(s: string): (r: string)
    ensures |r| == |s|
    ensures forall i :: 0 <= i < |s| ==> r[i] == LowerChar(s[i])
  {
    seq(|s|, i requires 0 <= i < |s| => LowerChar(s[i]))
  }

  /** Lower-casing twice is lower-casing once. */
  lemma LowerIdempotent(s: string)
    ensures Lower(Lower(s)) == Lower(s)
  {
  }

  /** `t` occurs in `s` starting at index `i`. */
  predicate OccursAt(s: string, t: string, i: int) {
    0 <= i && i + |t| <= |s| && s[i..i + |t|] == t
  }

  /** `t` occurs somewhere inside `s` as a contiguous run (Swift's `contains` on strings). */
  predicate Contains(s: string, t: string) {
    exists i | 0 <= i <= |s| :: OccursAt(s, t, i)
  }

  /** A string cannot contain a query whose first character it lacks. */
  lemma AbsentFirstChar(s: string, t: string)
    requires t != [] && t[0] !in s
    ensures !Contains(s, t)
  {
  }

  /** Swift's `joined(separator:)`: the pieces in order with `sep` between neighbours. */
  function Join(pieces: seq<string>, sep: string): string
    decreases |pieces|
  {
    if |pieces| == 0 then ""
    else if |pieces| == 1 then pieces[0]
    else pieces[0] + sep + Join(pieces[1..], sep)
  }

  /** Appending a piece to a non-empty list adds one separator and the piece at the end. */
  lemma {:induction false} JoinSnoc(pieces: seq<string>, last: string, sep: string)
    requires |pieces| > 0
    ensures Join(pieces + [last], sep) == Join(pieces, sep) + sep + last
    decreases |pieces|
  {
    if |pieces| == 1 {
      assert pieces + [last] == [pieces[0], last];
      assert [pieces[0], last][1..] == [last];
    } else {
      assert (pieces + [last])[1..] == pieces[1..] + [last];
      JoinSnoc(pieces[1..], last, sep);
    }
  }
}

=== FILE: Wrappers.dfy ===
/** Optional values and typed failures, standing in for Swift's `T?` and `throws`. */
module Wrappers {

  /** Swift's `Optional<T>`: `nil` or a wrapped value. */
  datatype Option<+T> = None | Some(value: T) {

    /** The wrapped value, or `default` for `nil` (Swift's `??`). */
    function GetOr(default: T): (r: T)
      ensures Some? ==> r == value
      ensures None? ==> r == default
    {
      match this
      case Some(v) => v
      case None => default
    }
  }

  /** The outcome of a throwing call: a value, or the error it threw. */
  datatype Result<+T, +E> = Ok(value: T) | Err(error: E)
}
